=== FILE: README.md ===
# Identity store, session counter and Sign in with Apple helpers, in Dafny

This project models the server-side core of a Next.js application's authentication layer and proves properties of that model:

- **The identity-store adapter** (`lib/firebase-adapter.ts`). It keeps users, accounts, sessions and verification tokens in four Firestore collections. Each collection is an immutable `map<DocId, …>`, and every adapter method is a pure function from the store and its arguments to the new store and its result. The clock (`now`) and fresh document ids are parameters.
  - A query with `.limit(1)` and no ordering returns the matching document with the least id. Ids are natural numbers whose order stands for Firestore's document-name order.
  - Nothing assumes that e-mails, provider account keys or session tokens are unique, because the code does not enforce it.
  - An optional field is three-valued (`Fields.Field`): absent (`undefined`), `null`, or a value. The adapter treats these three cases differently.
- **The per-user session counter** (`lib/session-count.ts`). It is a map from user id to a counter document. Reads follow the code's falsy defaults. `increment(1)` on a missing count yields 1. A missing document makes the increment fall back to creating one.
- **The pure parts of the Sign in with Apple client** (`lib/apple-auth.ts`):
  - the configuration check and its error message;
  - the client-secret claims, header and key normalisation;
  - the token-endpoint form bodies;
  - how each operation classifies and rewraps failures;
  - which segment of the identity token is decoded.

  The cryptographic signer, the HTTP client and the base64/JSON decoder are function parameters. The model states what each operation does with whatever they return or throw.

Modules:

| module | file | models |
|---|---|---|
| `Results` | results.dfy | `Option` and `Result` with `:-` support |
| `Fields` | fields.dfy | absent / null / value fields; partial update; `?.` chaining |
| `Docs` | docs.dfy | document ids; the first matching document of a collection |
| `IdentityStore` | identity_store.dfy | the adapter's entities and its fourteen methods |
| `IdentityStoreLemmas` | identity_store_lemmas.dfy | round trips and invariants across adapter calls |
| `SessionCount` | session_count.dfy | the session counter and its multi-call properties |
| `Text` | text.dfy | decimal rendering of a status code; `split` and `join` on strings |
| `AppleAuth` | apple_auth.dfy | the Apple client's pure logic and error handling |

### Where the code's own promises and its behaviour differ (the model follows the behaviour)

- The Auth.js adapter model that `lib/firebase-adapter.ts` implements expects (provider, providerAccountId) to identify one account and a session token to identify one session. The code never checks this: `linkAccount` and `createSession` write unconditionally, and lookups take the first match. The model assumes no uniqueness.
- The token calls attach the HTTP status to their error as its code (`lib/apple-auth.ts:80-83`). `getUserInfo` raises its non-ok error without one (`lib/apple-auth.ts:176-178`), and `GetUserInfo` states that the code is absent.
- The method is named `verifyIdToken`, and the comment at `lib/apple-auth.ts:149-150` says the signature should be verified. The code fetches Apple's keys but never uses them: it decodes the second segment without checking any signature. `VerifyIdToken` models exactly that.
- The comment at `lib/apple-auth.ts:28` gives the client secret a six-month lifetime. The token actually signed carries a six-minute one (see Findings). `GenerateClientSecret`, and through it the token exchange and refresh, model the code as written. `GenerateClientSecretCorrected` is the six-month version.

## Model

| member | source | states |
|---|---|---|
| `Docs.FirstWhere` | lib/firebase-adapter.ts:97-103 | a `.limit(1)` query with no ordering returns nothing exactly when no document matches; otherwise it returns a matching document and no matching document has a smaller id |
| `IdentityStore.ReadUser` | lib/firebase-adapter.ts:63-72 | reading a stored user turns a stored `null` emailVerified into undefined (`?.toDate()`) and keeps every other field as stored |
| `IdentityStore.ReadSession` | lib/firebase-adapter.ts:247-252 | a stored session reads back with the same id, token, user and expiry |
| `IdentityStore.CreateUserAsWritten` | lib/firebase-adapter.ts:43-57 | createUser as written writes every field, including undefined ones; the write fails exactly when some field is undefined, and otherwise stores the user with createdAt = updatedAt = now |
| `IdentityStore.CreateUser` | lib/firebase-adapter.ts:43-57 | corrected createUser: the new user is stored under the fresh id with the given fields, createdAt = updatedAt = now; the other collections and all other users are unchanged |
| `IdentityStore.GetUser` | lib/firebase-adapter.ts:59-73 | getUser is null exactly when no document has the id; otherwise it is that document as read back |
| `IdentityStore.GetUserByEmail` | lib/firebase-adapter.ts:75-93 | null exactly when no user has the e-mail; otherwise the first user with that e-mail |
| `IdentityStore.GetUserByAccount` | lib/firebase-adapter.ts:95-122 | null when no account has the (provider, providerAccountId) pair; otherwise the user that the first such account points to, which is null when that user is gone |
| `IdentityStore.UpdateUser` | lib/firebase-adapter.ts:124-149 | fails with not-found exactly when the id is missing; only the supplied fields change; updatedAt becomes now; id and createdAt are kept; the returned user is the stored one; other collections are untouched |
| `IdentityStore.DeleteUser` | lib/firebase-adapter.ts:151-175 | removes the user, every account and every session it owns, and nothing else; verification tokens are untouched |
| `IdentityStore.LinkAccount` | lib/firebase-adapter.ts:177-200 | stores the account under the fresh id with only the defined optional fields and returns it; nothing else changes |
| `IdentityStore.UnlinkAccount` | lib/firebase-adapter.ts:202-213 | removes the first account with the pair, or nothing when there is none; the other collections are untouched |
| `IdentityStore.CreateSession` | lib/firebase-adapter.ts:215-226 | stores the session under the fresh id and returns it; nothing else changes |
| `IdentityStore.GetSessionAndUser` | lib/firebase-adapter.ts:228-263 | null when no session has the token or when its user is missing; otherwise the first such session with its user |
| `IdentityStore.UpdateSession` | lib/firebase-adapter.ts:265-293 | null with no change when no session has the token; otherwise the first such session's stored record changes in the supplied expiry and user and in nothing else, and is returned as stored |
| `IdentityStore.DeleteSession` | lib/firebase-adapter.ts:295-305 | removes the first session with the token, or nothing; the other collections are untouched |
| `IdentityStore.CreateVerificationToken` | lib/firebase-adapter.ts:307-317 | stores the token under the fresh id and returns it unchanged; nothing else changes |
| `IdentityStore.UseVerificationToken` | lib/firebase-adapter.ts:319-340 | null with no change when no token matches (identifier, token); otherwise it returns the first match and deletes exactly that document |
| `IdentityStoreLemmas.CreateUserThenGetUser` | lib/firebase-adapter.ts:43-73 | getUser on the id createUser wrote returns the created user, except that an emailVerified created as null reads back as undefined |
| `IdentityStoreLemmas.CreateUserAsWrittenRefusesPartialUser` | lib/firebase-adapter.ts:45-55 | createUser as written fails on a user that has only an e-mail; the corrected version stores it |
| `IdentityStoreLemmas.UpdateUserThenGetUser` | lib/firebase-adapter.ts:124-149 | after a successful updateUser, getUser returns exactly the user that updateUser returned |
| `IdentityStoreLemmas.DeleteUserCascade` | lib/firebase-adapter.ts:151-175 | after deleteUser, getUser is null, and no account or session lookup leads back to the deleted user |
| `IdentityStoreLemmas.DeleteUserKeepsOwners` | lib/firebase-adapter.ts:151-175 | deleteUser preserves the invariant that every account and session belongs to an existing user |
| `IdentityStoreLemmas.LinkAccountThenGetUserByAccount` | lib/firebase-adapter.ts:177-200 | after linking a fresh account whose pair no other account has, getUserByAccount on that pair returns the linked user |
| `IdentityStoreLemmas.CreateSessionThenGetSessionAndUser` | lib/firebase-adapter.ts:215-263 | a session created with a new token for an existing user is found by getSessionAndUser with that user |
| `IdentityStoreLemmas.UpdateSessionKeepsLookup` | lib/firebase-adapter.ts:265-293 | the session updateSession changed is still the first session with that token, so later lookups by the token find the same document |
| `IdentityStoreLemmas.UnlinkAccountRemovesAtMostOne` | lib/firebase-adapter.ts:202-213 | unlinkAccount removes at most one account, and only one with the given pair |
| `IdentityStoreLemmas.DeleteSessionRemovesAtMostOne` | lib/firebase-adapter.ts:295-305 | deleteSession removes at most one session, and only one with the given token |
| `IdentityStoreLemmas.UseVerificationTokenConsumesOne` | lib/firebase-adapter.ts:319-340 | a successful useVerificationToken lowers the number of stored records with that (identifier, token) pair by exactly one |
| `IdentityStoreLemmas.CreateThenUseVerificationToken` | lib/firebase-adapter.ts:307-340 | a token created under a fresh id for a pair no stored record has is returned by the next useVerificationToken, and that use restores the collection to its state before the create |
| `IdentityStoreLemmas.UseVerificationTokenTwice` | lib/firebase-adapter.ts:319-340 | when exactly one record carries the pair, the first use returns it and a second use returns null |
| `SessionCount.Report` | lib/session-count.ts:16-23 | a stored counter reads with falsy defaults: a missing, null or zero count reads as 0; the user counts as upgraded only when true is stored; a missing or null timestamp reads as now |
| `SessionCount.GetSessionCount` | lib/session-count.ts:11-31 | null exactly when the user has no counter document; otherwise the document read with the defaults |
| `SessionCount.CreateSessionCount` | lib/session-count.ts:33-49 | the stored document holds count 1, not upgraded, updated now, whatever was there before, and reads back as such; other users are unchanged |
| `SessionCount.IncrementSessionCount` | lib/session-count.ts:51-83 | an existing counter's stored document gets a count one above what it read as and a timestamp of now, with the upgrade flag kept; a missing one is stored as count 1, not upgraded, updated now; the result is what the document reads back as; other users are unchanged |
| `SessionCount.UpdateUpgradeStatus` | lib/session-count.ts:85-96 | fails when the user has no counter document; otherwise it sets only the flag and the timestamp |
| `SessionCount.ResetSessionCount` | lib/session-count.ts:98-111 | the stored document holds count 0, not upgraded, updated now, whatever was stored before, and reads back as such; other users are unchanged |
| `SessionCount.IncrementsAdd` | lib/session-count.ts:51-72 | n increments on an existing counter raise its count by exactly n and leave the upgrade flag and other users alone |
| `SessionCount.IncrementsFromNothing` | lib/session-count.ts:51-83 | n ≥ 1 increments on a user with no counter give count n, not upgraded |
| `SessionCount.ResetThenIncrement` | lib/session-count.ts:98-111 | after a reset, n increments read back as count n and not upgraded, whatever the counter held before |
| `Text.DecimalString` | lib/apple-auth.ts:82 | a status code's decimal text is all digits, has no leading zero and denotes the code |
| `Text.DecimalStringInjective` | lib/apple-auth.ts:82 | distinct status codes give distinct error codes |
| `Text.Split` | lib/apple-auth.ts:152 | splitting yields at least one piece; no piece contains the separator; joining the pieces gives back the string; there is one piece exactly when the separator does not occur |
| `Text.SplitAfterPiece` | lib/apple-auth.ts:152 | splitting a piece, the separator and a rest gives the piece followed by the rest's pieces |
| `AppleAuth.Wrap` | lib/apple-auth.ts:45-49 | a catch block that wraps whatever was thrown, an Apple error included, into a new Apple error without a code whose message is the prefix followed by the thrown error's message, or "Unknown error" for a non-Error |
| `AppleAuth.Rethrow` | lib/apple-auth.ts:88-95 | an Apple error passes through unchanged; any other failure is wrapped with the prefix and no code |
| `AppleAuth.FalsyFields` | lib/apple-auth.ts:205-207 | a configuration field is reported exactly when its value is missing or empty, in declaration order |
| `AppleAuth.MissingFields` | lib/apple-auth.ts:197-208 | the configuration's entries are filtered in declaration order (clientId, teamId, privateKey, keyId): a field is listed exactly when its value is unset or empty, and the list is empty exactly when all four are set |
| `AppleAuth.CreateAppleAuth` | lib/apple-auth.ts:196-216 | succeeds with the four values exactly when none is missing or empty; otherwise it names exactly the missing variables, in order, and the message is the fixed prefix followed by their names joined by ", " |
| `AppleAuth.ClientSecretPayload` | lib/apple-auth.ts:23-31 | iss is the team, sub is the client, aud is Apple's origin; iat is now in whole seconds (rounded down) and exp is 15777000 seconds later |
| `AppleAuth.NormalizeKey` | lib/apple-auth.ts:33 | the normalised key contains no escaped-newline pair, is unchanged when there was none, and never grows |
| `AppleAuth.NormalizeKeyIdempotent` | lib/apple-auth.ts:33 | normalising twice is normalising once |
| `AppleAuth.NormalizeKeyReplaces` | lib/apple-auth.ts:33 | for any prefix without a backslash-n pair (it may end in a backslash), the first pair after it becomes one newline, the prefix is kept and the rest is normalised in turn, so the replacement runs left to right |
| `AppleAuth.SignedClaimsAsWritten` | lib/apple-auth.ts:35-42 | the claims actually signed keep iss, sub and aud; iat is the library's first clock reading (`setIssuedAt()`) and exp is six minutes after its second (`setExpirationTime("6m")`) |
| `AppleAuth.SignedLifetimeAsWritten` | lib/apple-auth.ts:28-41 | when the two clock readings are taken in turn, the signed secret lives 360 seconds (361 if a second boundary passes between them), never the 15777000 seconds the payload states |
| `AppleAuth.ClientSecretRequest` | lib/apple-auth.ts:25-42 | corrected signing request: ES256 with the configured key id, the normalised key, and the payload's claims unchanged, so the lifetime is 15777000 seconds |
| `AppleAuth.ClientSecretRequestAsWritten` | lib/apple-auth.ts:25-42 | what the code hands the signer: ES256 with the configured key id, the normalised key, iss/sub/aud from the payload, iat the library's first clock reading and exp six minutes after its second, so the lifetime is 360 or 361 seconds |
| `AppleAuth.RequestsDifferOnlyInLifetime` | lib/apple-auth.ts:25-42 | the as-written and the corrected signing request agree on header, key, iss, sub and aud, and differ only in iat and exp, so their lifetimes differ |
| `AppleAuth.GenerateClientSecret` | lib/apple-auth.ts:21-50 | generateClientSecret as written: the secret is the signer's output for the as-written request (a lifetime of 360 or 361 seconds); any signer failure becomes an Apple error with the client-secret prefix and no code |
| `AppleAuth.GenerateClientSecretCorrected` | lib/apple-auth.ts:21-50 | corrected generateClientSecret: the same outcome classification over the request that keeps the payload's 15777000-second lifetime |
| `AppleAuth.ExchangeForm` | lib/apple-auth.ts:62-68 | the form carries client_id, client_secret, code, grant_type=authorization_code and redirect_uri, each once, with the given values |
| `AppleAuth.RefreshForm` | lib/apple-auth.ts:105-110 | the form carries client_id, client_secret, refresh_token and grant_type=refresh_token, each once, and no code or redirect_uri |
| `AppleAuth.CallTokenEndpoint` | lib/apple-auth.ts:70-95 | succeeds exactly on a 2xx response whose body parses, returning the body unchanged; a non-2xx status gives an Apple error whose code is the status in decimal; a failed fetch or parse is rethrown with the prefix |
| `AppleAuth.ExchangeCodeForTokens` | lib/apple-auth.ts:55-96 | the client secret is generated as written; its failure propagates unchanged; otherwise the exchange form carrying it is posted and handled as above |
| `AppleAuth.RefreshToken` | lib/apple-auth.ts:101-138 | the client secret is generated as written; its failure propagates unchanged; otherwise the refresh form carrying it is posted and handled as above |
| `AppleAuth.GetUserInfo` | lib/apple-auth.ts:166-190 | sends the bearer token; returns the parsed body on a 2xx response; a non-2xx status gives an Apple error without a code; other failures are rethrown with the prefix |
| `AppleAuth.SecondSegment` | lib/apple-auth.ts:152 | there is a second dot-separated segment exactly when the token contains a dot, and it contains no dot |
| `AppleAuth.SecondSegmentOfCompactToken` | lib/apple-auth.ts:151-153 | for header.payload.signature the decoded segment is the payload |
| `AppleAuth.VerifyIdToken` | lib/apple-auth.ts:143-161 | once the key set has been fetched, the result depends only on the decoder's reading of the second segment, with no signature check; a failed key fetch, a token without a dot and every decoding failure become an Apple error with the verification prefix and no code |
| `AppleAuth.VerifyIdTokenDecodesPayload` | lib/apple-auth.ts:151-155 | for a compact token, the result is the decoder's reading of the payload segment, whatever the signature segment holds |

## Left out

- The sign-in orchestration (the route handler and session callbacks) is not part of this model. Nor are the UI, the Firebase client and admin initialisation, the middleware and the data-clearing script.
- Concurrency. Firestore calls are modelled one at a time. The get-then-delete in `useVerificationToken` and the query-then-batch in `deleteUser` are not atomic in the code, and interleavings are not modelled.
- Store failures such as network errors and permission errors are not modelled. So the session counter's catch blocks, which turn any failure into `null` or rethrow it (`lib/session-count.ts:27-30`, `79-81`), never run in the model. Neither does the `null` return after a failed re-read in `updateSession`.
- Firestore `Timestamp` ↔ `Date` conversion is taken as the identity on an integer time. Millisecond truncation is not modelled.
- `IdentityStore.CreateUser`: `createdAt` and `updatedAt` come from two `new Date()` calls (`lib/firebase-adapter.ts:51-52`). The model reads the clock once, so both equal `now`. In the code the second reading can be a millisecond or so later.
- `IdentityStore.UpdateSession`: an update with neither expiry nor user is modelled as a write that changes nothing. Firestore may refuse an empty update.
- `SessionCount.Report`: stored values of another type are not modelled. A truthy non-number count (such as the string "3") or a truthy non-boolean flag would be reported as stored. So would a count that is a number but not an integer. Stored counts are integers or missing or null, and stored flags are booleans or missing or null.
- The counter document's stored `userId` field is written but never read back, because reads use the document id. The model keys the map by the user id and does not store the field.
- The HTTP layer is left out: URL-encoding of the form bodies, header assembly beyond the bearer value, and `response.text()` on the error path. That text is read and discarded; its own failure is treated like any other fetch failure.
- `AppleAuth.VerifyIdToken`: the key set fetched at `lib/apple-auth.ts:146-147` is modelled only as success or failure, because its contents are never used.
- Base64 decoding, JSON parsing and ES256 signing are opaque function parameters. Whether the signing library accepts the key as raw encoded bytes (`lib/apple-auth.ts:42`) is therefore outside the model.
- `AppleAuth.SignedClaimsAsWritten`: the signing library's two clock readings are parameters. Its contract gives the lifetime for any pair of readings. `SignedLifetimeAsWritten` bounds it to 360 or 361 seconds only when the second reading is the first or the next whole second, which is what two consecutive calls give.
- `AppleAuth.ClientSecretPayload`: the reading of `Date.now()` is a parameter (milliseconds). The contract fixes `iat` as that value divided by 1000 and rounded down.

## Findings

| source | as written | input that shows it | evidently intended | confidence | as-written member | corrected member |
|---|---|---|---|---|---|---|
| lib/firebase-adapter.ts:45-55 | createUser writes name, emailVerified and image even when they are undefined. The Firestore admin client refuses undefined values by default, as the same file's comment at line 180 notes when it filters them out of linkAccount. | a user from a provider that supplies only an e-mail: name, emailVerified and image undefined | omit undefined fields, as linkAccount does | medium; not executed; depends on the client's default `ignoreUndefinedProperties: false` | `IdentityStore.CreateUserAsWritten` (shown by `IdentityStoreLemmas.CreateUserAsWrittenRefusesPartialUser`) | `IdentityStore.CreateUser` (proved by `IdentityStoreLemmas.CreateUserThenGetUser`) |
| lib/apple-auth.ts:28-41 | The payload sets `exp = iat + 15777000` ("6 months"). `.setIssuedAt()` and `.setExpirationTime("6m")` then overwrite both claims, and "6m" means six minutes to the signing library. | any configuration: the signed secret has `exp − iat = 360` (361 if a second boundary passes between the library's two clock readings) | a client secret valid for the payload's 15777000 seconds | medium; not executed; depends on the signing library reading "m" as minutes | `AppleAuth.GenerateClientSecret` over `AppleAuth.ClientSecretRequestAsWritten` (shown by `AppleAuth.SignedLifetimeAsWritten`) | `AppleAuth.GenerateClientSecretCorrected` over `AppleAuth.ClientSecretRequest` |

=== FILE: apple_auth.dfy ===
/**
 * The pure parts of the Sign in with Apple credential helpers: the configuration check, the
 * client-secret claims and signing request, the token-endpoint forms, the classification of
 * failures into `AppleAuthError`, and the choice of the identity-token segment to decode.
 * Signing, HTTP and base64/JSON decoding are foreign calls; they are parameters here.
 */
module AppleAuth {
  import opened Results
  import opened Text

  datatype AppleAuthConfig = AppleAuthConfig(clientId: string, teamId: string, privateKey: string, keyId: string)

  datatype AppleTokenResponse = AppleTokenResponse(
    accessToken: string,
    tokenType: string,
    expiresIn: int,
    refreshToken: string,
    idToken: string)

  datatype PersonName = PersonName(firstName: Option<string>, lastName: Option<string>)

  datatype AppleUserInfo = AppleUserInfo(
    sub: string,
    email: Option<string>,
    emailVerified: Option<string>,
    name: Option<PersonName>,
    isPrivateEmail: Option<string>)

  /** The error every helper throws; `code` is the HTTP status of a refused token request. */
  datatype AppleAuthError = AppleAuthError(message: string, code: Option<string>)

  /** A value thrown by a step: an `AppleAuthError`, another `Error`, or a non-Error value. */
  datatype Thrown = Raised(error: AppleAuthError) | ErrorWithMessage(message: string) | NonError

  /** `error instanceof Error ? error.message : "Unknown error"` */
  function MessageOf(t: Thrown): string {
    match t
    case Raised(e) => e.message
    case ErrorWithMessage(m) => m
    case NonError => "Unknown error"
  }

  /** A catch block that wraps whatever was thrown into a new error without a code. */
  function Wrap(prefix: string, t: Thrown): (e: AppleAuthError)
    ensures e.code.None?
    ensures e.message == prefix + MessageOf(t)
  {
    AppleAuthError(prefix + MessageOf(t), None)
  }

  /** A catch block that rethrows an `AppleAuthError` unchanged and wraps anything else. */
  function Rethrow(prefix: string, t: Thrown): (e: AppleAuthError)
    ensures t.Raised? ==> e == t.error
    ensures !t.Raised? ==> e.code.None? && e.message == prefix + MessageOf(t)
  {
    if t.Raised? then t.error else Wrap(prefix, t)
  }

  // Configuration

  /** The four environment variables; `None` is an unset variable. */
  datatype AppleEnv = AppleEnv(clientId: Option<string>, teamId: Option<string>, privateKey: Option<string>, keyId: Option<string>)

  /** The configuration fields, declared in this order. */
  datatype ConfigField = ClientIdField | TeamIdField | PrivateKeyField | KeyIdField {
    function Name(): string {
      match this
      case ClientIdField => "clientId"
      case TeamIdField => "teamId"
      case PrivateKeyField => "privateKey"
      case KeyIdField => "keyId"
    }

    /** The position of the field in declaration order. */
    function Rank(): nat {
      match this
      case ClientIdField => 0
      case TeamIdField => 1
      case PrivateKeyField => 2
      case KeyIdField => 3
    }
  }

  datatype ConfigError = ConfigError(missing: seq<ConfigField>, message: string)

  const MissingVarsPrefix := "Missing required Apple authentication environment variables: "

  function ValueOf(env: AppleEnv, f: ConfigField): Option<string> {
    match f
    case ClientIdField => env.clientId
    case TeamIdField => env.teamId
    case PrivateKeyField => env.privateKey
    case KeyIdField => env.keyId
  }

  /** `!value`: an unset variable or the empty string. */
  predicate Falsy(v: Option<string>) {
    v.None? || v.value == ""
  }

  function Names(fields: seq<ConfigField>): (names: seq<string>)
    ensures |names| == |fields|
    ensures forall i :: 0 <= i < |fields| ==> names[i] == fields[i].Name()
  {
    if fields == [] then [] else [fields[0].Name()] + Names(fields[1..])
  }

  /** Ranks strictly increase along `fields`. */
  predicate InDeclarationOrder(fields: seq<ConfigField>) {
    forall i, j :: 0 <= i < j < |fields| ==> fields[i].Rank() < fields[j].Rank()
  }

  /** The falsy fields among `fields`, kept in their order: `filter` over the entries. */
  function FalsyFields(env: AppleEnv, fields: seq<ConfigField>): (m: seq<ConfigField>)
    ensures forall f :: f in m <==> f in fields && Falsy(ValueOf(env, f))
    ensures InDeclarationOrder(fields) ==> InDeclarationOrder(m)
    ensures forall i :: 0 <= i < |m| ==> exists j :: 0 <= j < |fields| && m[i] == fields[j]
  {
    if fields == [] then []
    else
      var rest := FalsyFields(env, fields[1..]);
      if Falsy(ValueOf(env, fields[0])) then [fields[0]] + rest else rest
  }

  /** The falsy configuration fields, in declaration order. */
  function MissingFields(env: AppleEnv): (m: seq<ConfigField>)
    ensures forall f :: f in m <==> Falsy(ValueOf(env, f))
    ensures InDeclarationOrder(m)
    ensures m == [] <==>
      !Falsy(env.clientId) && !Falsy(env.teamId) && !Falsy(env.privateKey) && !Falsy(env.keyId)
  {
    var fields := [ClientIdField, TeamIdField, PrivateKeyField, KeyIdField];
    assert InDeclarationOrder(fields) by {
      forall i, j | 0 <= i < j < |fields|
        ensures fields[i].Rank() < fields[j].Rank()
      {
        assert fields[i].Rank() == i && fields[j].Rank() == j;
      }
    }
    assert forall f: ConfigField :: f in fields by {
      forall f: ConfigField
        ensures f in fields
      {
        assert f == fields[f.Rank()];
      }
    }
    var m := FalsyFields(env, fields);
    assert ClientIdField in fields && TeamIdField in fields && PrivateKeyField in fields && KeyIdField in fields;
    assert m != [] ==> m[0] in m;
    m
  }

  /** createAppleAuth: fails when some variable is falsy, naming exactly the falsy ones in
      declaration order; otherwise builds the configuration from the four values. */
  function CreateAppleAuth(env: AppleEnv): (r: Result<AppleAuthConfig, ConfigError>)
    ensures r.Success? <==>
      !Falsy(env.clientId) && !Falsy(env.teamId) && !Falsy(env.privateKey) && !Falsy(env.keyId)
    ensures r.Success? ==>
      r.value == AppleAuthConfig(env.clientId.value, env.teamId.value, env.privateKey.value, env.keyId.value)
    ensures r.Failure? ==> forall f :: f in r.error.missing <==> Falsy(ValueOf(env, f))
    ensures r.Failure? ==> InDeclarationOrder(r.error.missing) && |r.error.missing| >= 1
    ensures r.Failure? ==> r.error.message == MissingVarsPrefix + Join(Names(r.error.missing), ", ")
  {
    var missing := MissingFields(env);
    if missing == [] then
      Success(AppleAuthConfig(env.clientId.value, env.teamId.value, env.privateKey.value, env.keyId.value))
    else
      Failure(ConfigError(missing, MissingVarsPrefix + Join(Names(missing), ", ")))
  }

  // Client secret

  /** The audience of the client secret, also the provider's origin. */
  const AppleOrigin := "https://appleid.apple.com"

  /** The client secret's intended lifetime in seconds, about six months. */
  const ClientSecretLifetime := 15777000

  /** jose reads the span "6m" as six minutes. */
  const SixMinutes := 360

  datatype Claims = Claims(iss: string, iat: int, exp: int, aud: string, sub: string)

  datatype JwtHeader = JwtHeader(alg: string, kid: string)

  /** What is handed to the signer: protected header, claims and the key text. */
  datatype SignRequest = SignRequest(header: JwtHeader, claims: Claims, key: string)

  /** The claims payload built from the clock reading `nowMs` (milliseconds). */
  function ClientSecretPayload(config: AppleAuthConfig, nowMs: int): (c: Claims)
    ensures c.iss == config.teamId && c.sub == config.clientId && c.aud == AppleOrigin
    ensures c.exp - c.iat == ClientSecretLifetime
    ensures c.iat * 1000 <= nowMs < c.iat * 1000 + 1000
  {
    var now := nowMs / 1000;
    Claims(config.teamId, now, now + ClientSecretLifetime, AppleOrigin, config.clientId)
  }

  /** No backslash is followed by the letter n. */
  predicate NoEscapedNewline(s: string) {
    forall i :: 0 <= i < |s| - 1 ==> !(s[i] == '\\' && s[i + 1] == 'n')
  }

  /** `replace(/\\n/g, "\n")`: every two-character sequence backslash-n, scanned left to
      right, becomes a newline. */
  function NormalizeKey(s: string): (r: string)
    ensures NoEscapedNewline(r)
    ensures NoEscapedNewline(s) ==> r == s
    ensures |r| <= |s|
    ensures |r| > 0 ==> r[0] == s[0] || (r[0] == '\n' && s[0] == '\\')
    decreases |s|
  {
    if |s| < 2 then s
    else if s[0] == '\\' && s[1] == 'n' then "\n" + NormalizeKey(s[2..])
    else
      var tail := NormalizeKey(s[1..]);
      NoEscapedNewlineTail(s);
      [s[0]] + tail
  }

  lemma NoEscapedNewlineTail(s: string)
    requires |s| > 0
    ensures NoEscapedNewline(s) ==> NoEscapedNewline(s[1..])
  {
    if NoEscapedNewline(s) {
      forall i | 0 <= i < |s[1..]| - 1
        ensures !(s[1..][i] == '\\' && s[1..][i + 1] == 'n')
      {
        assert s[1..][i] == s[i + 1] && s[1..][i + 1] == s[i + 2];
      }
    }
  }

  /** Normalising twice is normalising once. */
  lemma NormalizeKeyIdempotent(s: string)
    ensures NormalizeKey(NormalizeKey(s)) == NormalizeKey(s)
  {
  }

  /** The first escaped newline after a clean prefix becomes a newline and the rest is
      normalised in turn. */
  lemma {:induction false} NormalizeKeyReplaces(prefix: string, rest: string)
    requires NoEscapedNewline(prefix)
    ensures NormalizeKey(prefix + "\\n" + rest) == prefix + "\n" + NormalizeKey(rest)
    decreases |prefix|
  {
    var s := prefix + "\\n" + rest;
    if prefix == [] {
      assert s[2..] == rest;
    } else {
      var tail := prefix[1..];
      assert s[1..] == tail + "\\n" + rest;
      assert s[0] == prefix[0];
      assert !(s[0] == '\\' && s[1] == 'n') by {
        if |prefix| > 1 {
          assert s[1] == prefix[1];
        } else {
          assert s[1] == '\\';
        }
      }
      assert NormalizeKey(s) == [s[0]] + NormalizeKey(s[1..]);
      NoEscapedNewlineTail(prefix);
      NormalizeKeyReplaces(tail, rest);
      assert [prefix[0]] + tail == prefix;
    }
  }

  /** The signing library's two clock readings, in whole seconds: one by `setIssuedAt()` and a
      later one by `setExpirationTime("6m")`. */
  datatype SignerClock = SignerClock(issuedAt: int, expiryFrom: int)

  /** The two readings are taken one after the other, less than a second apart, so the second
      is the first or the next whole second. */
  predicate ReadInTurn(clock: SignerClock) {
    clock.issuedAt <= clock.expiryFrom <= clock.issuedAt + 1
  }

  /** The claims as the signing library leaves them: `setIssuedAt()` replaces iat with its
      first clock reading and `setExpirationTime("6m")` replaces exp with six minutes after its
      second one. */
  function SignedClaimsAsWritten(payload: Claims, clock: SignerClock): (c: Claims)
    ensures c.iss == payload.iss && c.sub == payload.sub && c.aud == payload.aud
    ensures c.iat == clock.issuedAt && c.exp == clock.expiryFrom + SixMinutes
    ensures c.exp - c.iat == SixMinutes + (clock.expiryFrom - clock.issuedAt)
  {
    payload.(iat := clock.issuedAt, exp := clock.expiryFrom + SixMinutes)
  }

  /** The signed client secret as written lives six minutes (one second more when a second
      boundary passes between the two readings), not the six months its payload states. */
  lemma SignedLifetimeAsWritten(config: AppleAuthConfig, nowMs: int, clock: SignerClock)
    requires ReadInTurn(clock)
    ensures var c := SignedClaimsAsWritten(ClientSecretPayload(config, nowMs), clock);
      && (c.exp - c.iat == SixMinutes || c.exp - c.iat == SixMinutes + 1)
      && c.exp - c.iat != ClientSecretLifetime
  {
  }

  /** The signing request with the payload's own iat and exp kept: ES256, the configured
      key id, and the private key with escaped newlines normalised. */
  function ClientSecretRequest(config: AppleAuthConfig, nowMs: int): (r: SignRequest)
    ensures r.header == JwtHeader("ES256", config.keyId)
    ensures r.claims.iss == config.teamId && r.claims.sub == config.clientId && r.claims.aud == AppleOrigin
    ensures r.claims.exp - r.claims.iat == ClientSecretLifetime
    ensures r.claims.iat * 1000 <= nowMs < r.claims.iat * 1000 + 1000
    ensures r.key == NormalizeKey(config.privateKey) && NoEscapedNewline(r.key)
  {
    SignRequest(JwtHeader("ES256", config.keyId), ClientSecretPayload(config, nowMs), NormalizeKey(config.privateKey))
  }

  /** The signing request as written: ES256 with the configured key id and the normalised
      key, over the payload's claims after the library has reset iat and exp from its own
      clock readings. */
  function ClientSecretRequestAsWritten(config: AppleAuthConfig, nowMs: int, clock: SignerClock): (r: SignRequest)
    ensures r.header == JwtHeader("ES256", config.keyId)
    ensures r.claims.iss == config.teamId && r.claims.sub == config.clientId && r.claims.aud == AppleOrigin
    ensures r.claims.iat == clock.issuedAt && r.claims.exp == clock.expiryFrom + SixMinutes
    ensures ReadInTurn(clock) ==> SixMinutes <= r.claims.exp - r.claims.iat <= SixMinutes + 1
    ensures r.key == NormalizeKey(config.privateKey) && NoEscapedNewline(r.key)
  {
    SignRequest(JwtHeader("ES256", config.keyId),
                SignedClaimsAsWritten(ClientSecretPayload(config, nowMs), clock),
                NormalizeKey(config.privateKey))
  }

  /** The two requests differ in iat and exp only, and in the lifetime they give the secret. */
  lemma RequestsDifferOnlyInLifetime(config: AppleAuthConfig, nowMs: int, clock: SignerClock)
    requires ReadInTurn(clock)
    ensures var w := ClientSecretRequestAsWritten(config, nowMs, clock);
      var c := ClientSecretRequest(config, nowMs);
      && w.header == c.header && w.key == c.key
      && w.claims == c.claims.(iat := clock.issuedAt, exp := clock.expiryFrom + SixMinutes)
      && w.claims.exp - w.claims.iat != c.claims.exp - c.claims.iat
  {
  }

  const SecretPrefix := "Failed to generate client secret: "

  /** generateClientSecret as written: the signer's token for the as-written request, or its
      failure wrapped without a code. */
  function GenerateClientSecret(config: AppleAuthConfig, nowMs: int, clock: SignerClock, sign: SignRequest -> Result<string, Thrown>)
    : (r: Result<string, AppleAuthError>)
    ensures var signed := sign(ClientSecretRequestAsWritten(config, nowMs, clock));
      && (signed.Success? ==> r == Success(signed.value))
      && (signed.Failure? ==> r.Failure? && r.error.code.None?
                              && r.error.message == SecretPrefix + MessageOf(signed.error))
  {
    match sign(ClientSecretRequestAsWritten(config, nowMs, clock))
    case Success(jwt) => Success(jwt)
    case Failure(t) => Failure(Wrap(SecretPrefix, t))
  }

  /** generateClientSecret with the payload's claims signed unchanged: the same outcome
      classification, over the six-month request. */
  function GenerateClientSecretCorrected(config: AppleAuthConfig, nowMs: int, sign: SignRequest -> Result<string, Thrown>)
    : (r: Result<string, AppleAuthError>)
    ensures var signed := sign(ClientSecretRequest(config, nowMs));
      && (signed.Success? ==> r == Success(signed.value))
      && (signed.Failure? ==> r.Failure? && r.error.code.None?
                              && r.error.message == SecretPrefix + MessageOf(signed.error))
  {
    match sign(ClientSecretRequest(config, nowMs))
    case Success(jwt) => Success(jwt)
    case Failure(t) => Failure(Wrap(SecretPrefix, t))
  }

  // Token endpoint

  /** The parameter names the token endpoint accepts. */
  datatype Param = ClientId | ClientSecret | Code | GrantType | RedirectUri | RefreshTokenParam {
    /** The name on the wire. */
    function Name(): string {
      match this
      case ClientId => "client_id"
      case ClientSecret => "client_secret"
      case Code => "code"
      case GrantType => "grant_type"
      case RedirectUri => "redirect_uri"
      case RefreshTokenParam => "refresh_token"
    }
  }

  /** A form body, as the ordered entries of `URLSearchParams`. */
  type Form = seq<(Param, string)>

  /** `URLSearchParams.get`: the value of the first entry with the parameter. */
  function FormGet(f: Form, p: Param): (r: Option<string>)
    ensures r.None? <==> forall i :: 0 <= i < |f| ==> f[i].0 != p
    ensures r.Some? ==> exists i :: 0 <= i < |f| && f[i] == (p, r.value)
  {
    if f == [] then None
    else if f[0].0 == p then Some(f[0].1)
    else FormGet(f[1..], p)
  }

  /** No parameter occurs twice. */
  predicate DistinctParams(f: Form) {
    forall i, j :: 0 <= i < j < |f| ==> f[i].0 != f[j].0
  }

  function ExchangeForm(clientId: string, clientSecret: string, code: string, redirectUri: string): (f: Form)
    ensures |f| == 5 && DistinctParams(f)
    ensures FormGet(f, ClientId) == Some(clientId)
    ensures FormGet(f, ClientSecret) == Some(clientSecret)
    ensures FormGet(f, Code) == Some(code)
    ensures FormGet(f, GrantType) == Some("authorization_code")
    ensures FormGet(f, RedirectUri) == Some(redirectUri)
  {
    var f := [(ClientId, clientId), (ClientSecret, clientSecret), (Code, code),
              (GrantType, "authorization_code"), (RedirectUri, redirectUri)];
    assert FormGet(f[4..], RedirectUri) == Some(redirectUri);
    assert FormGet(f[3..], GrantType) == Some("authorization_code");
    assert FormGet(f[3..], RedirectUri) == Some(redirectUri);
    assert FormGet(f[2..], Code) == Some(code);
    assert FormGet(f[2..], GrantType) == Some("authorization_code");
    assert FormGet(f[2..], RedirectUri) == Some(redirectUri);
    f
  }

  function RefreshForm(clientId: string, clientSecret: string, refreshToken: string): (f: Form)
    ensures |f| == 4 && DistinctParams(f)
    ensures FormGet(f, ClientId) == Some(clientId)
    ensures FormGet(f, ClientSecret) == Some(clientSecret)
    ensures FormGet(f, RefreshTokenParam) == Some(refreshToken)
    ensures FormGet(f, GrantType) == Some("refresh_token")
    ensures FormGet(f, Code).None? && FormGet(f, RedirectUri).None?
  {
    var f := [(ClientId, clientId), (ClientSecret, clientSecret), (RefreshTokenParam, refreshToken),
              (GrantType, "refresh_token")];
    assert FormGet(f[3..], GrantType) == Some("refresh_token");
    assert FormGet(f[2..], RefreshTokenParam) == Some(refreshToken);
    assert FormGet(f[2..], GrantType) == Some("refresh_token");
    f
  }

  /** What a `fetch` call produced: a rejected promise, or a response with its status, its
      status text, and the outcome of `response.json()`. */
  datatype HttpOutcome<T> =
    | FetchFailed(thrown: Thrown)
    | Responded(status: nat, statusText: string, body: Result<T, Thrown>)

  /** `response.ok` */
  predicate Ok(status: nat) {
    200 <= status <= 299
  }

  const ExchangePrefix := "Token exchange failed: "
  const RefreshPrefix := "Token refresh failed: "

  /** The shared tail of exchangeCodeForTokens and refreshToken: POST the form, refuse a
      non-ok status with an error whose code is the status, return the parsed body unchanged,
      and classify every other failure through the catch block. */
  function CallTokenEndpoint(form: Form, prefix: string, post: Form -> HttpOutcome<AppleTokenResponse>)
    : (r: Result<AppleTokenResponse, AppleAuthError>)
    ensures var out := post(form);
      r.Success? <==> out.Responded? && Ok(out.status) && out.body.Success?
    ensures var out := post(form);
      r.Success? ==> out.body == Success(r.value)
    ensures var out := post(form);
      out.Responded? && !Ok(out.status) ==>
        && r.Failure?
        && r.error.code == Some(DecimalString(out.status))
        && DigitsValue(r.error.code.value) == out.status
        && r.error.message == prefix + DecimalString(out.status) + " " + out.statusText
    ensures var out := post(form);
      out.FetchFailed? ==> r == Failure(Rethrow(prefix, out.thrown))
    ensures var out := post(form);
      out.Responded? && Ok(out.status) && out.body.Failure? ==> r == Failure(Rethrow(prefix, out.body.error))
  {
    match post(form)
    case FetchFailed(t) => Failure(Rethrow(prefix, t))
    case Responded(status, statusText, body) =>
      if !Ok(status) then
        var code := DecimalString(status);
        Failure(AppleAuthError(prefix + code + " " + statusText, Some(code)))
      else
        match body
        case Success(data) => Success(data)
        case Failure(t) => Failure(Rethrow(prefix, t))
  }

  /** exchangeCodeForTokens: mint a client secret, then POST the authorization-code form.
      A failed secret is rethrown unchanged (it already is an `AppleAuthError`). */
  function ExchangeCodeForTokens(
    config: AppleAuthConfig, code: string, redirectUri: string, nowMs: int, clock: SignerClock,
    sign: SignRequest -> Result<string, Thrown>, post: Form -> HttpOutcome<AppleTokenResponse>)
    : (r: Result<AppleTokenResponse, AppleAuthError>)
    ensures GenerateClientSecret(config, nowMs, clock, sign).Failure? ==>
      r == Failure(GenerateClientSecret(config, nowMs, clock, sign).error)
    ensures GenerateClientSecret(config, nowMs, clock, sign).Success? ==>
      r == CallTokenEndpoint(
        ExchangeForm(config.clientId, GenerateClientSecret(config, nowMs, clock, sign).value, code, redirectUri),
        ExchangePrefix, post)
  {
    var secret :- GenerateClientSecret(config, nowMs, clock, sign);
    CallTokenEndpoint(ExchangeForm(config.clientId, secret, code, redirectUri), ExchangePrefix, post)
  }

  /** refreshToken: mint a client secret, then POST the refresh-token form. */
  function RefreshToken(
    config: AppleAuthConfig, refreshToken: string, nowMs: int, clock: SignerClock,
    sign: SignRequest -> Result<string, Thrown>, post: Form -> HttpOutcome<AppleTokenResponse>)
    : (r: Result<AppleTokenResponse, AppleAuthError>)
    ensures GenerateClientSecret(config, nowMs, clock, sign).Failure? ==>
      r == Failure(GenerateClientSecret(config, nowMs, clock, sign).error)
    ensures GenerateClientSecret(config, nowMs, clock, sign).Success? ==>
      r == CallTokenEndpoint(
        RefreshForm(config.clientId, GenerateClientSecret(config, nowMs, clock, sign).value, refreshToken),
        RefreshPrefix, post)
  {
    var secret :- GenerateClientSecret(config, nowMs, clock, sign);
    CallTokenEndpoint(RefreshForm(config.clientId, secret, refreshToken), RefreshPrefix, post)
  }

  // User info

  const UserInfoPrefix := "Failed to fetch user info: "

  /** getUserInfo: GET with the bearer header; a non-ok status is refused without a code. */
  function GetUserInfo(accessToken: string, get: string -> HttpOutcome<AppleUserInfo>)
    : (r: Result<AppleUserInfo, AppleAuthError>)
    ensures var out := get("Bearer " + accessToken);
      r.Success? <==> out.Responded? && Ok(out.status) && out.body.Success?
    ensures var out := get("Bearer " + accessToken);
      r.Success? ==> out.body == Success(r.value)
    ensures var out := get("Bearer " + accessToken);
      out.Responded? && !Ok(out.status) ==>
        r.Failure? && r.error.code.None? &&
        r.error.message == UserInfoPrefix + DecimalString(out.status) + " " + out.statusText
    ensures var out := get("Bearer " + accessToken);
      out.FetchFailed? ==> r == Failure(Rethrow(UserInfoPrefix, out.thrown))
    ensures var out := get("Bearer " + accessToken);
      out.Responded? && Ok(out.status) && out.body.Failure? ==> r == Failure(Rethrow(UserInfoPrefix, out.body.error))
  {
    match get("Bearer " + accessToken)
    case FetchFailed(t) => Failure(Rethrow(UserInfoPrefix, t))
    case Responded(status, statusText, body) =>
      if !Ok(status) then
        Failure(AppleAuthError(UserInfoPrefix + DecimalString(status) + " " + statusText, None))
      else
        match body
        case Success(info) => Success(info)
        case Failure(t) => Failure(Rethrow(UserInfoPrefix, t))
  }

  // Identity token

  /** `idToken.split(".")[1]`, or None where that index is undefined. */
  function SecondSegment(token: string): (r: Option<string>)
    ensures r.Some? <==> '.' in token
    ensures r.Some? ==> '.' !in r.value
  {
    var parts := Split(token, '.');
    if |parts| >= 2 then Some(parts[1]) else None
  }

  /** The payload of a compact token `header.payload.signature` is its second segment. */
  lemma SecondSegmentOfCompactToken(header: string, payload: string, rest: string)
    requires '.' !in header && '.' !in payload
    ensures SecondSegment(header + "." + payload + "." + rest) == Some(payload)
    ensures SecondSegment(header + "." + payload) == Some(payload)
  {
    SplitAfterPiece(header, '.', payload + "." + rest);
    assert header + "." + payload + "." + rest == header + ['.'] + (payload + "." + rest);
    SplitAfterPiece(payload, '.', rest);
    assert payload + "." + rest == payload + ['.'] + rest;
    SplitAfterPiece(header, '.', payload);
    assert header + "." + payload == header + ['.'] + payload;
    var ps := Split(payload, '.');
    assert |ps| == 1 && Join(ps, ".") == payload;
  }

  /** The outcome of fetching and parsing the provider's key set (which is then unused). */
  datatype Outcome = Pass | Fail(thrown: Thrown)

  const VerifyPrefix := "ID token verification failed: "

  /** What Buffer.from throws when handed `undefined`. */
  const UndefinedSegment := ErrorWithMessage(
    "The first argument must be of type string or an instance of Buffer, ArrayBuffer, or Array or an Array-like Object. Received undefined")

  /** verifyIdToken: fetches the key set, then decodes the second '.'-separated segment with
      `decode` (base64 and JSON) without checking the signature; every failure is wrapped. */
  function VerifyIdToken(idToken: string, keys: Outcome, decode: string -> Result<AppleUserInfo, Thrown>)
    : (r: Result<AppleUserInfo, AppleAuthError>)
    ensures r.Failure? ==> r.error.code.None?
    ensures keys.Fail? ==> r == Failure(Wrap(VerifyPrefix, keys.thrown))
    ensures '.' !in idToken ==> r.Failure?
    ensures keys.Pass? && '.' !in idToken ==> r == Failure(Wrap(VerifyPrefix, UndefinedSegment))
    ensures keys.Pass? && '.' in idToken && decode(SecondSegment(idToken).value).Failure? ==>
      r == Failure(Wrap(VerifyPrefix, decode(SecondSegment(idToken).value).error))
    ensures keys.Pass? && '.' in idToken ==>
      (r.Success? <==> decode(SecondSegment(idToken).value).Success?)
    ensures r.Success? ==> '.' in idToken && decode(SecondSegment(idToken).value) == Success(r.value)
  {
    if keys.Fail? then Failure(Wrap(VerifyPrefix, keys.thrown))
    else
      match SecondSegment(idToken)
      case None => Failure(Wrap(VerifyPrefix, UndefinedSegment))
      case Some(segment) =>
        match decode(segment)
        case Success(info) => Success(info)
        case Failure(t) => Failure(Wrap(VerifyPrefix, t))
  }

  /** On a compact token, verifyIdToken returns exactly what decoding its payload gives. */
  lemma VerifyIdTokenDecodesPayload(header: string, payload: string, signature: string,
                                     decode: string -> Result<AppleUserInfo, Thrown>)
    requires '.' !in header && '.' !in payload
    ensures var r := VerifyIdToken(header + "." + payload + "." + signature, Pass, decode);
      (r.Success? <==> decode(payload).Success?) && (r.Success? ==> r.value == decode(payload).value)
  {
    SecondSegmentOfCompactToken(header, payload, signature);
  }
}

=== FILE: docs.dfy ===
/**
 * Collections of the document store.  A collection maps document ids to documents.  A query
 * with `.limit(1)` and no ordering returns the matching document that comes first in the
 * store's default order, which is the order of document names; the model represents document
 * names by `DocId` and that order by the order of naturals.  Nothing here assumes that a
 * query has at most one match.
 */
module Docs {
  import opened Results

  type DocId = nat

  /** A non-empty set of ids has a least element: descend from any member. */
  lemma LeastExists(s: set<DocId>)
    requires s != {}
    ensures exists m :: m in s && forall k :: k in s ==> m <= k
  {
    var x :| x in s;
    LeastBelow(s, x);
  }

  /** Some member of `s` at or below `x` is below every member of `s`. */
  lemma {:induction false} LeastBelow(s: set<DocId>, x: DocId)
    requires x in s
    ensures exists m :: m in s && forall k :: k in s ==> m <= k
    decreases x
  {
    if y :| y in s && y < x {
      LeastBelow(s, y);
    } else {
      assert forall k :: k in s ==> x <= k;
    }
  }

  /** The first id of a non-empty set of ids in the store's order. */
  function Least(s: set<DocId>): (m: DocId)
    requires s != {}
    ensures m in s
    ensures forall k :: k in s ==> m <= k
  {
    LeastExists(s);
    var m :| m in s && forall k :: k in s ==> m <= k;
    m
  }

  /** The ids of the documents of `c` that satisfy `p`: the result set of a query. */
  function Matching<D>(c: map<DocId, D>, p: D -> bool): (ids: set<DocId>)
    ensures forall k :: k in ids <==> k in c && p(c[k])
  {
    set k | k in c && p(c[k])
  }

  /** `k` is the document a `.limit(1)` query on `c` with filter `p` returns. */
  ghost predicate IsFirst<D>(c: map<DocId, D>, p: D -> bool, k: DocId) {
    k in c && p(c[k]) && forall j :: j in c && p(c[j]) ==> k <= j
  }

  /** The document a `.limit(1)` query on `c` with filter `p` returns, if any. */
  function FirstWhere<D>(c: map<DocId, D>, p: D -> bool): (r: Option<DocId>)
    ensures r.None? <==> forall k :: k in c ==> !p(c[k])
    ensures r.Some? ==> r.value in c && p(c[r.value])
    ensures r.Some? ==> forall k :: k in c && p(c[k]) ==> r.value <= k
  {
    var hits := Matching(c, p);
    if hits == {} then None else Some(Least(hits))
  }
}

=== FILE: fields.dfy ===
/**
 * Optional document fields.  In the source an optional field has three states, not two:
 * `undefined` means "leave it out / do not touch it", `null` means "store null", and
 * anything else is a value.
 */
module Fields {

  /** An instant (a `Date` or a stored timestamp), in milliseconds since the epoch. */
  type Time = int

  datatype Field<+T> = Absent | Null | Val(value: T) {

    /** The field after a partial update that carries `patch`: an undefined patch keeps it. */
    function Patched(patch: Field<T>): Field<T> {
      if patch.Absent? then this else patch
    }

    /** How a field reads back through optional chaining (`x?.toDate()`): a stored `null`
        becomes `undefined`. */
    function Chained(): Field<T> {
      if Null? then Absent else this
    }
  }
}

=== FILE: identity_store.dfy ===
/**
 * The identity store adapter: the user, account, session and verification-token operations
 * over four document collections.  Every operation is a function from the store state (and its
 * arguments) to the new state and its result; the clock reading `now` and the ids the store
 * assigns to new documents are parameters.
 */
module IdentityStore {
  import opened Results
  import opened Fields
  import opened Docs

  datatype User = User(
    id: DocId,
    name: Field<string>,
    email: Field<string>,
    emailVerified: Field<Time>,
    image: Field<string>,
    createdAt: Time,
    updatedAt: Time)

  datatype Account = Account(
    id: DocId,
    userId: DocId,
    accountType: string,
    provider: string,
    providerAccountId: string,
    refreshToken: Field<string>,
    accessToken: Field<string>,
    expiresAt: Field<int>,
    tokenType: Field<string>,
    scope: Field<string>,
    idToken: Field<string>,
    sessionState: Field<string>)

  datatype Session = Session(id: DocId, sessionToken: string, userId: DocId, expires: Time)

  datatype VerificationToken = VerificationToken(identifier: string, token: string, expires: Time)

  /** The four collections `users`, `accounts`, `sessions` and `verificationTokens`. */
  datatype Store = Store(
    users: map<DocId, User>,
    accounts: map<DocId, Account>,
    sessions: map<DocId, Session>,
    verificationTokens: map<DocId, VerificationToken>)

  /** The fields of a partial user that createUser copies. */
  datatype UserData = UserData(
    name: Field<string>,
    email: Field<string>,
    emailVerified: Field<Time>,
    image: Field<string>)

  /** The argument of updateUser: the user's id and the fields to write (Absent = untouched). */
  datatype UserPatch = UserPatch(
    id: DocId,
    name: Field<string>,
    email: Field<string>,
    emailVerified: Field<Time>,
    image: Field<string>)

  /** The argument of updateSession: the token to look up and the fields to write. */
  datatype SessionPatch = SessionPatch(sessionToken: string, expires: Option<Time>, userId: Option<DocId>)

  datatype StoreError =
    | NotFound                      // `update` of a document that does not exist
    | UndefinedValue(field: string) // a document write that carries an `undefined` value

  // Query filters

  function EmailIs(email: string): User -> bool {
    (u: User) => u.email == Val(email)
  }

  function AccountKey(provider: string, providerAccountId: string): Account -> bool {
    (a: Account) => a.provider == provider && a.providerAccountId == providerAccountId
  }

  function OwnedBy(userId: DocId): Account -> bool {
    (a: Account) => a.userId == userId
  }

  function SessionOwnedBy(userId: DocId): Session -> bool {
    (s: Session) => s.userId == userId
  }

  function SessionTokenIs(sessionToken: string): Session -> bool {
    (s: Session) => s.sessionToken == sessionToken
  }

  function TokenPair(identifier: string, token: string): VerificationToken -> bool {
    (v: VerificationToken) => v.identifier == identifier && v.token == token
  }

  // Reading documents back

  /** A user document as the adapter returns it: the id is the document's name, and
      `emailVerified` goes through `?.toDate()`, so a stored null reads back as undefined. */
  function ReadUser(id: DocId, doc: User): (u: User)
    ensures u.id == id
    ensures u.name == doc.name && u.email == doc.email && u.image == doc.image
    ensures u.createdAt == doc.createdAt && u.updatedAt == doc.updatedAt
    ensures !u.emailVerified.Null?
    ensures doc.emailVerified.Null? ==> u.emailVerified.Absent?
    ensures !doc.emailVerified.Null? ==> u.emailVerified == doc.emailVerified
  {
    doc.(id := id, emailVerified := doc.emailVerified.Chained())
  }

  function ReadSession(id: DocId, doc: Session): (s: Session)
    ensures s.id == id
    ensures s.sessionToken == doc.sessionToken && s.userId == doc.userId && s.expires == doc.expires
  {
    doc.(id := id)
  }

  // Users

  /** createUser as written: the record handed to `set` carries every field of the
      argument, `undefined` ones included, and the store refuses a document holding an
      undefined value. */
  function CreateUserAsWritten(st: Store, id: DocId, now: Time, data: UserData): (r: Result<(Store, User), StoreError>)
    ensures r.Failure? <==>
      data.name.Absent? || data.email.Absent? || data.emailVerified.Absent? || data.image.Absent?
    ensures r.Failure? ==> r.error.UndefinedValue?
    ensures r.Success? ==> r.value == CreateUser(st, id, now, data)
  {
    if data.name.Absent? then Failure(UndefinedValue("name"))
    else if data.email.Absent? then Failure(UndefinedValue("email"))
    else if data.emailVerified.Absent? then Failure(UndefinedValue("emailVerified"))
    else if data.image.Absent? then Failure(UndefinedValue("image"))
    else Success(CreateUser(st, id, now, data))
  }

  /** createUser with undefined fields left out of the written document. */
  function CreateUser(st: Store, id: DocId, now: Time, data: UserData): (r: (Store, User))
    ensures r.1.id == id
    ensures r.1.createdAt == now && r.1.updatedAt == now
    ensures r.1.name == data.name && r.1.email == data.email
    ensures r.1.emailVerified == data.emailVerified && r.1.image == data.image
    ensures id in r.0.users && r.0.users[id] == r.1
    ensures r.0.users - {id} == st.users - {id}
    ensures r.0.accounts == st.accounts && r.0.sessions == st.sessions
    ensures r.0.verificationTokens == st.verificationTokens
  {
    var user := User(id, data.name, data.email, data.emailVerified, data.image, now, now);
    (st.(users := st.users[id := user]), user)
  }

  function GetUser(st: Store, id: DocId): (r: Option<User>)
    ensures r.None? <==> id !in st.users
    ensures r.Some? ==> r.value == ReadUser(id, st.users[id])
  {
    if id in st.users then Some(ReadUser(id, st.users[id])) else None
  }

  function GetUserByEmail(st: Store, email: string): (r: Option<User>)
    ensures r.None? <==> forall k :: k in st.users ==> st.users[k].email != Val(email)
    ensures r.Some? ==> IsFirst(st.users, EmailIs(email), r.value.id)
    ensures r.Some? ==> r.value == ReadUser(r.value.id, st.users[r.value.id])
  {
    match FirstWhere(st.users, EmailIs(email))
    case None => None
    case Some(k) => Some(ReadUser(k, st.users[k]))
  }

  /** The user of the first account with this provider key; null when there is no such
      account or when that account's user document is missing. */
  function GetUserByAccount(st: Store, provider: string, providerAccountId: string): (r: Option<User>)
    ensures (forall k :: k in st.accounts ==> !AccountKey(provider, providerAccountId)(st.accounts[k])) ==> r.None?
    ensures forall k :: IsFirst(st.accounts, AccountKey(provider, providerAccountId), k) ==>
      r == GetUser(st, st.accounts[k].userId)
  {
    match FirstWhere(st.accounts, AccountKey(provider, providerAccountId))
    case None => None
    case Some(k) => GetUser(st, st.accounts[k].userId)
  }

  function UpdateUser(st: Store, now: Time, patch: UserPatch): (r: Result<(Store, User), StoreError>)
    ensures r.Failure? <==> patch.id !in st.users
    ensures r.Failure? ==> r.error == NotFound
    ensures r.Success? ==> patch.id in r.value.0.users
    ensures r.Success? ==>
      var st' := r.value.0;
      var before := st.users[patch.id];
      var after := st'.users[patch.id];
      && st'.users - {patch.id} == st.users - {patch.id}
      && (patch.name.Absent? ==> after.name == before.name)
      && (!patch.name.Absent? ==> after.name == patch.name)
      && (patch.email.Absent? ==> after.email == before.email)
      && (!patch.email.Absent? ==> after.email == patch.email)
      && (patch.emailVerified.Absent? ==> after.emailVerified == before.emailVerified)
      && (!patch.emailVerified.Absent? ==> after.emailVerified == patch.emailVerified)
      && (patch.image.Absent? ==> after.image == before.image)
      && (!patch.image.Absent? ==> after.image == patch.image)
      && after.updatedAt == now
      && after.createdAt == before.createdAt
      && after.id == before.id
      && r.value.1 == ReadUser(patch.id, after)
      && st'.accounts == st.accounts && st'.sessions == st.sessions
      && st'.verificationTokens == st.verificationTokens
  {
    if patch.id !in st.users then Failure(NotFound)
    else
      var before := st.users[patch.id];
      var after := before.(
        name := before.name.Patched(patch.name),
        email := before.email.Patched(patch.email),
        emailVerified := before.emailVerified.Patched(patch.emailVerified),
        image := before.image.Patched(patch.image),
        updatedAt := now);
      Success((st.(users := st.users[patch.id := after]), ReadUser(patch.id, after)))
  }

  /** deleteUser: one batch that deletes the user document and every account and session
      whose userId is that user. */
  function DeleteUser(st: Store, userId: DocId): (r: Store)
    ensures r.users == st.users - {userId}
    ensures forall k :: k in r.accounts <==> k in st.accounts && st.accounts[k].userId != userId
    ensures forall k :: k in r.accounts ==> r.accounts[k] == st.accounts[k]
    ensures forall k :: k in r.sessions <==> k in st.sessions && st.sessions[k].userId != userId
    ensures forall k :: k in r.sessions ==> r.sessions[k] == st.sessions[k]
    ensures r.verificationTokens == st.verificationTokens
  {
    var doomedAccounts := Matching(st.accounts, OwnedBy(userId));
    var doomedSessions := Matching(st.sessions, SessionOwnedBy(userId));
    Store(st.users - {userId},
          st.accounts - doomedAccounts,
          st.sessions - doomedSessions,
          st.verificationTokens)
  }

  // Accounts

  /** linkAccount: always inserts; the stored document carries the new id and exactly the
      optional fields that were not undefined (a null is stored as null). */
  function LinkAccount(st: Store, id: DocId, data: Account): (r: (Store, Account))
    ensures r.1.id == id
    ensures r.1.userId == data.userId && r.1.accountType == data.accountType
    ensures r.1.provider == data.provider && r.1.providerAccountId == data.providerAccountId
    ensures r.1.refreshToken == data.refreshToken && r.1.accessToken == data.accessToken
    ensures r.1.expiresAt == data.expiresAt && r.1.tokenType == data.tokenType
    ensures r.1.scope == data.scope && r.1.idToken == data.idToken
    ensures r.1.sessionState == data.sessionState
    ensures id in r.0.accounts && r.0.accounts[id] == r.1
    ensures r.0.accounts - {id} == st.accounts - {id}
    ensures r.0.users == st.users && r.0.sessions == st.sessions
    ensures r.0.verificationTokens == st.verificationTokens
  {
    var account := data.(id := id);
    (st.(accounts := st.accounts[id := account]), account)
  }

  /** unlinkAccount: deletes the first account with the provider key, if there is one. */
  function UnlinkAccount(st: Store, provider: string, providerAccountId: string): (r: Store)
    ensures (forall k :: k in st.accounts ==> !AccountKey(provider, providerAccountId)(st.accounts[k])) ==> r == st
    ensures forall k :: IsFirst(st.accounts, AccountKey(provider, providerAccountId), k) ==>
      r == st.(accounts := st.accounts - {k})
  {
    match FirstWhere(st.accounts, AccountKey(provider, providerAccountId))
    case None => st
    case Some(k) => st.(accounts := st.accounts - {k})
  }

  // Sessions

  function CreateSession(st: Store, id: DocId, sessionToken: string, userId: DocId, expires: Time): (r: (Store, Session))
    ensures r.1 == Session(id, sessionToken, userId, expires)
    ensures id in r.0.sessions && r.0.sessions[id] == r.1
    ensures r.0.sessions - {id} == st.sessions - {id}
    ensures r.0.users == st.users && r.0.accounts == st.accounts
    ensures r.0.verificationTokens == st.verificationTokens
  {
    var session := Session(id, sessionToken, userId, expires);
    (st.(sessions := st.sessions[id := session]), session)
  }

  /** The first session with this token together with its user; null when there is no such
      session or when its user document is missing. */
  function GetSessionAndUser(st: Store, sessionToken: string): (r: Option<(Session, User)>)
    ensures (forall k :: k in st.sessions ==> st.sessions[k].sessionToken != sessionToken) ==> r.None?
    ensures forall k :: IsFirst(st.sessions, SessionTokenIs(sessionToken), k) ==>
      (r.None? <==> st.sessions[k].userId !in st.users)
    ensures forall k :: IsFirst(st.sessions, SessionTokenIs(sessionToken), k) && r.Some? ==>
      r.value.0 == ReadSession(k, st.sessions[k]) && GetUser(st, st.sessions[k].userId) == Some(r.value.1)
  {
    match FirstWhere(st.sessions, SessionTokenIs(sessionToken))
    case None => None
    case Some(k) =>
      var session := st.sessions[k];
      match GetUser(st, session.userId)
      case None => None
      case Some(user) => Some((ReadSession(k, session), user))
  }

  /** updateSession: writes the supplied `expires` and `userId` of the first session with
      the token; null when there is none. */
  function UpdateSession(st: Store, patch: SessionPatch): (r: (Store, Option<Session>))
    ensures (forall k :: k in st.sessions ==> st.sessions[k].sessionToken != patch.sessionToken) ==>
      r.1.None? && r.0 == st
    ensures forall k :: IsFirst(st.sessions, SessionTokenIs(patch.sessionToken), k) ==>
      var before := st.sessions[k];
      && r.1.Some?
      && k in r.0.sessions && r.0.sessions - {k} == st.sessions - {k}
      && r.0.sessions[k] == before.(
           expires := if patch.expires.Some? then patch.expires.value else before.expires,
           userId := if patch.userId.Some? then patch.userId.value else before.userId)
      && r.1.value == ReadSession(k, r.0.sessions[k])
      && r.1.value.id == k
      && r.1.value.sessionToken == before.sessionToken
      && r.1.value.expires == (if patch.expires.Some? then patch.expires.value else before.expires)
      && r.1.value.userId == (if patch.userId.Some? then patch.userId.value else before.userId)
    ensures r.0.users == st.users && r.0.accounts == st.accounts
    ensures r.0.verificationTokens == st.verificationTokens
  {
    match FirstWhere(st.sessions, SessionTokenIs(patch.sessionToken))
    case None => (st, None)
    case Some(k) =>
      var before := st.sessions[k];
      var after := before.(
        expires := if patch.expires.Some? then patch.expires.value else before.expires,
        userId := if patch.userId.Some? then patch.userId.value else before.userId);
      (st.(sessions := st.sessions[k := after]), Some(ReadSession(k, after)))
  }

  /** deleteSession: deletes the first session with the token, if there is one. */
  function DeleteSession(st: Store, sessionToken: string): (r: Store)
    ensures (forall k :: k in st.sessions ==> st.sessions[k].sessionToken != sessionToken) ==> r == st
    ensures forall k :: IsFirst(st.sessions, SessionTokenIs(sessionToken), k) ==>
      r == st.(sessions := st.sessions - {k})
  {
    match FirstWhere(st.sessions, SessionTokenIs(sessionToken))
    case None => st
    case Some(k) => st.(sessions := st.sessions - {k})
  }

  // Verification tokens

  /** createVerificationToken: stores the record under a new document id and returns it. */
  function CreateVerificationToken(st: Store, id: DocId, data: VerificationToken): (r: (Store, VerificationToken))
    ensures r.1 == data
    ensures id in r.0.verificationTokens && r.0.verificationTokens[id] == data
    ensures r.0.verificationTokens - {id} == st.verificationTokens - {id}
    ensures r.0.users == st.users && r.0.accounts == st.accounts && r.0.sessions == st.sessions
  {
    (st.(verificationTokens := st.verificationTokens[id := data]), data)
  }

  /** useVerificationToken: finds the first record with this identifier and token, deletes
      it and returns it; null when there is none. */
  function UseVerificationToken(st: Store, identifier: string, token: string): (r: (Store, Option<VerificationToken>))
    ensures r.1.None? <==>
      forall k :: k in st.verificationTokens ==> !TokenPair(identifier, token)(st.verificationTokens[k])
    ensures r.1.None? ==> r.0 == st
    ensures forall k :: IsFirst(st.verificationTokens, TokenPair(identifier, token), k) ==>
      && r.1 == Some(st.verificationTokens[k])
      && r.0 == st.(verificationTokens := st.verificationTokens - {k})
    ensures r.1.Some? ==> r.1.value.identifier == identifier && r.1.value.token == token
  {
    match FirstWhere(st.verificationTokens, TokenPair(identifier, token))
    case None => (st, None)
    case Some(k) =>
      var record := st.verificationTokens[k];
      (st.(verificationTokens := st.verificationTokens - {k}),
       Some(VerificationToken(record.identifier, record.token, record.expires)))
  }
}

=== FILE: identity_store_lemmas.dfy ===
/**
 * Properties that relate several identity store operations: round trips through the
 * lookups, the cascade of deleteUser, and single use of verification tokens.
 */
module IdentityStoreLemmas {
  import opened Results
  import opened Fields
  import opened Docs
  import opened IdentityStore

  /** Every account and session names a user that exists. */
  ghost predicate NoDanglingOwners(st: Store) {
    && (forall k :: k in st.accounts ==> st.accounts[k].userId in st.users)
    && (forall k :: k in st.sessions ==> st.sessions[k].userId in st.users)
  }

  /** What createUser returns is what getUser on the new id reads back, except that an
      `emailVerified` created as null reads back as undefined. */
  lemma CreateUserThenGetUser(st: Store, id: DocId, now: Time, data: UserData)
    ensures var (st', user) := CreateUser(st, id, now, data);
      GetUser(st', id) == Some(user.(emailVerified := data.emailVerified.Chained()))
    ensures !data.emailVerified.Null? ==>
      GetUser(CreateUser(st, id, now, data).0, id) == Some(CreateUser(st, id, now, data).1)
  {
  }

  /** createUser as written refuses a user whose name, emailVerified and image are undefined,
      which is what a provider that reports only an email produces. */
  lemma CreateUserAsWrittenRefusesPartialUser(st: Store, id: DocId, now: Time)
    ensures CreateUserAsWritten(st, id, now, UserData(Absent, Val("a@x.com"), Absent, Absent))
         == Failure(UndefinedValue("name"))
    ensures CreateUser(st, id, now, UserData(Absent, Val("a@x.com"), Absent, Absent)).1.email == Val("a@x.com")
  {
  }

  /** The user updateUser returns is what a later getUser on the same id reads. */
  lemma UpdateUserThenGetUser(st: Store, now: Time, patch: UserPatch)
    requires patch.id in st.users
    ensures UpdateUser(st, now, patch).Success?
    ensures GetUser(UpdateUser(st, now, patch).value.0, patch.id) == Some(UpdateUser(st, now, patch).value.1)
  {
  }

  /** After deleteUser(u), no lookup reaches u: u is gone, getUserByAccount never returns u
      and returns null when every account with that key belonged to u, and
      getSessionAndUser never returns a session of u or u itself. */
  lemma DeleteUserCascade(st: Store, u: DocId, provider: string, providerAccountId: string, sessionToken: string)
    ensures GetUser(DeleteUser(st, u), u).None?
    ensures var r := GetUserByAccount(DeleteUser(st, u), provider, providerAccountId);
      r.None? || r.value.id != u
    ensures (forall k :: k in st.accounts && AccountKey(provider, providerAccountId)(st.accounts[k]) ==>
               st.accounts[k].userId == u) ==>
      GetUserByAccount(DeleteUser(st, u), provider, providerAccountId).None?
    ensures var r := GetSessionAndUser(DeleteUser(st, u), sessionToken);
      r.None? || (r.value.0.userId != u && r.value.1.id != u)
    ensures (forall k :: k in st.sessions && st.sessions[k].sessionToken == sessionToken ==>
               st.sessions[k].userId == u) ==>
      GetSessionAndUser(DeleteUser(st, u), sessionToken).None?
  {
    var st' := DeleteUser(st, u);
    var key := AccountKey(provider, providerAccountId);
    var fa := FirstWhere(st'.accounts, key);
    if fa.Some? {
      var k := fa.value;
      assert IsFirst(st'.accounts, key, k);
      assert st'.accounts[k].userId != u;
    }
    var fs := FirstWhere(st'.sessions, SessionTokenIs(sessionToken));
    if fs.Some? {
      var k := fs.value;
      assert IsFirst(st'.sessions, SessionTokenIs(sessionToken), k);
      assert st'.sessions[k].userId != u;
    }
  }

  /** deleteUser leaves no account or session without its user. */
  lemma DeleteUserKeepsOwners(st: Store, u: DocId)
    requires NoDanglingOwners(st)
    ensures NoDanglingOwners(DeleteUser(st, u))
  {
  }

  /** Linking the first account with a provider key to an existing user makes
      getUserByAccount find that user. */
  lemma LinkAccountThenGetUserByAccount(st: Store, id: DocId, data: Account)
    requires data.userId in st.users
    requires forall k :: k in st.accounts ==> !AccountKey(data.provider, data.providerAccountId)(st.accounts[k])
    ensures GetUserByAccount(LinkAccount(st, id, data).0, data.provider, data.providerAccountId)
         == GetUser(st, data.userId)
  {
    var st' := LinkAccount(st, id, data).0;
    var key := AccountKey(data.provider, data.providerAccountId);
    assert key(st'.accounts[id]);
    assert IsFirst(st'.accounts, key, id);
  }

  /** A session created for an existing user under a token no other session has is what
      getSessionAndUser returns for that token. */
  lemma CreateSessionThenGetSessionAndUser(st: Store, id: DocId, sessionToken: string, userId: DocId, expires: Time)
    requires userId in st.users
    requires forall k :: k in st.sessions ==> st.sessions[k].sessionToken != sessionToken
    ensures GetSessionAndUser(CreateSession(st, id, sessionToken, userId, expires).0, sessionToken)
         == Some((Session(id, sessionToken, userId, expires), ReadUser(userId, st.users[userId])))
  {
    var st' := CreateSession(st, id, sessionToken, userId, expires).0;
    assert IsFirst(st'.sessions, SessionTokenIs(sessionToken), id);
  }

  /** updateSession never changes which session a token finds: the session it updated is
      still the first with that token. */
  lemma UpdateSessionKeepsLookup(st: Store, patch: SessionPatch, k: DocId)
    requires IsFirst(st.sessions, SessionTokenIs(patch.sessionToken), k)
    ensures IsFirst(UpdateSession(st, patch).0.sessions, SessionTokenIs(patch.sessionToken), k)
  {
    var st' := UpdateSession(st, patch).0;
    forall j | j in st'.sessions && SessionTokenIs(patch.sessionToken)(st'.sessions[j])
      ensures k <= j
    {
      if j != k {
        assert j in st.sessions && st'.sessions[j] == st.sessions[j];
      }
    }
  }

  /** unlinkAccount removes at most one account, and only a matching one. */
  lemma UnlinkAccountRemovesAtMostOne(st: Store, provider: string, providerAccountId: string)
    ensures var r := UnlinkAccount(st, provider, providerAccountId);
      && r.accounts.Keys <= st.accounts.Keys
      && |st.accounts| - 1 <= |r.accounts|
      && (forall k :: k in st.accounts && k !in r.accounts ==> AccountKey(provider, providerAccountId)(st.accounts[k]))
  {
    var f := FirstWhere(st.accounts, AccountKey(provider, providerAccountId));
    if f.Some? {
      assert IsFirst(st.accounts, AccountKey(provider, providerAccountId), f.value);
      assert (st.accounts - {f.value}).Keys == st.accounts.Keys - {f.value};
    }
  }

  /** deleteSession removes at most one session, and only one with the token. */
  lemma DeleteSessionRemovesAtMostOne(st: Store, sessionToken: string)
    ensures var r := DeleteSession(st, sessionToken);
      && r.sessions.Keys <= st.sessions.Keys
      && |st.sessions| - 1 <= |r.sessions|
      && (forall k :: k in st.sessions && k !in r.sessions ==> st.sessions[k].sessionToken == sessionToken)
  {
    var f := FirstWhere(st.sessions, SessionTokenIs(sessionToken));
    if f.Some? {
      assert IsFirst(st.sessions, SessionTokenIs(sessionToken), f.value);
      assert (st.sessions - {f.value}).Keys == st.sessions.Keys - {f.value};
    }
  }

  /** Each successful useVerificationToken consumes exactly one record with that pair. */
  lemma {:induction false} UseVerificationTokenConsumesOne(st: Store, identifier: string, token: string)
    ensures var (st', r) := UseVerificationToken(st, identifier, token);
      var pair := TokenPair(identifier, token);
      r.Some? ==> |Matching(st'.verificationTokens, pair)| == |Matching(st.verificationTokens, pair)| - 1
  {
    var pair := TokenPair(identifier, token);
    var f := FirstWhere(st.verificationTokens, pair);
    if f.Some? {
      var k := f.value;
      assert IsFirst(st.verificationTokens, pair, k);
      var st' := UseVerificationToken(st, identifier, token).0;
      assert Matching(st'.verificationTokens, pair) == Matching(st.verificationTokens, pair) - {k};
    }
  }

  /** A token created under a fresh id, for a pair no stored record has, is what the next
      useVerificationToken returns, and that use leaves the collection as it was. */
  lemma CreateThenUseVerificationToken(st: Store, id: DocId, data: VerificationToken)
    requires id !in st.verificationTokens
    requires forall k :: k in st.verificationTokens ==> !TokenPair(data.identifier, data.token)(st.verificationTokens[k])
    ensures var (st', _) := CreateVerificationToken(st, id, data);
      UseVerificationToken(st', data.identifier, data.token) == (st, Some(data))
  {
    var st' := CreateVerificationToken(st, id, data).0;
    assert IsFirst(st'.verificationTokens, TokenPair(data.identifier, data.token), id);
    assert st'.verificationTokens - {id} == st.verificationTokens;
  }

  /** Single use, sequentially: when one stored record carries the pair, the first call
      returns it and a second call returns null. */
  lemma UseVerificationTokenTwice(st: Store, identifier: string, token: string)
    requires |Matching(st.verificationTokens, TokenPair(identifier, token))| == 1
    ensures UseVerificationToken(st, identifier, token).1.Some?
    ensures UseVerificationToken(UseVerificationToken(st, identifier, token).0, identifier, token).1.None?
  {
    var pair := TokenPair(identifier, token);
    var k :| k in Matching(st.verificationTokens, pair);
    UseVerificationTokenConsumesOne(st, identifier, token);
    var st' := UseVerificationToken(st, identifier, token).0;
    assert Matching(st'.verificationTokens, pair) == {};
    forall j | j in st'.verificationTokens
      ensures !pair(st'.verificationTokens[j])
    {
      assert j !in Matching(st'.verificationTokens, pair);
    }
  }
}

=== FILE: results.dfy ===
/** Failure-compatible wrappers shared by every module of the model. */
module Results {

  /** `None` stands for the adapter's `null` result of a lookup that found nothing. */
  datatype Option<+T> = None | Some(value: T)

  /** A computation that either produces a value or fails with an error the source throws. */
  datatype Result<+T, +E> = Success(value: T) | Failure(error: E) {

    predicate IsFailure() {
      Failure?
    }

    function PropagateFailure<U>(): Result<U, E>
      requires Failure?
    {
      Failure(error)
    }

    function Extract(): T
      requires Success?
    {
      value
    }
  }
}

=== FILE: session_count.dfy ===
/**
 * The per-user session counter: one document per user in the `sessionCounts` collection,
 * keyed by the user's id.  Every operation reads or writes only its own user's document.
 */
module SessionCount {
  import opened Results
  import opened Fields

  type UserId = string

  /** A stored counter document.  Its fields may be missing or null when the document was
      written by other code; the reads below treat those as falsy. */
  datatype CountDoc = CountDoc(sessionCount: Field<int>, hasUpgraded: Field<bool>, lastUpdated: Field<Time>)

  /** A counter as the functions report it. */
  datatype SessionCountData = SessionCountData(userId: UserId, sessionCount: int, hasUpgraded: bool, lastUpdated: Time)

  type Counts = map<UserId, CountDoc>

  datatype CountError = NoDocumentToUpdate

  /** The document `doc` as getSessionCount reports it: a falsy count reads as 0, a falsy
      upgrade flag as false, and a missing timestamp as the current time. */
  function Report(userId: UserId, doc: CountDoc, now: Time): (r: SessionCountData)
    ensures r.userId == userId
    ensures doc.sessionCount.Val? ==> r.sessionCount == doc.sessionCount.value
    ensures !doc.sessionCount.Val? ==> r.sessionCount == 0
    ensures r.hasUpgraded <==> doc.hasUpgraded == Val(true)
    ensures r.lastUpdated == (if doc.lastUpdated.Val? then doc.lastUpdated.value else now)
  {
    SessionCountData(
      userId,
      if doc.sessionCount.Val? then doc.sessionCount.value else 0,
      doc.hasUpgraded == Val(true),
      if doc.lastUpdated.Val? then doc.lastUpdated.value else now)
  }

  function GetSessionCount(db: Counts, userId: UserId, now: Time): (r: Option<SessionCountData>)
    ensures r.None? <==> userId !in db
    ensures r.Some? ==> r.value == Report(userId, db[userId], now)
  {
    if userId in db then Some(Report(userId, db[userId], now)) else None
  }

  /** createSessionCount: overwrites the user's document with count 1, not upgraded. */
  function CreateSessionCount(db: Counts, userId: UserId, now: Time): (r: (Counts, SessionCountData))
    ensures r.1 == SessionCountData(userId, 1, false, now)
    ensures userId in r.0 && r.0[userId] == CountDoc(Val(1), Val(false), Val(now))
    ensures GetSessionCount(r.0, userId, now) == Some(r.1)
    ensures r.0 - {userId} == db - {userId}
  {
    (db[userId := CountDoc(Val(1), Val(false), Val(now))], SessionCountData(userId, 1, false, now))
  }

  /** incrementSessionCount: an atomic `increment(1)` of an existing document (a missing or
      non-numeric count becomes 1), or createSessionCount when the document is missing. */
  function IncrementSessionCount(db: Counts, userId: UserId, now: Time): (r: (Counts, SessionCountData))
    ensures userId in r.0
    ensures GetSessionCount(r.0, userId, now) == Some(r.1)
    ensures userId in db ==> r.1.sessionCount == Report(userId, db[userId], now).sessionCount + 1
    ensures userId in db ==> r.0[userId].hasUpgraded == db[userId].hasUpgraded
    ensures userId in db ==> r.0[userId] == db[userId].(
      sessionCount := Val(Report(userId, db[userId], now).sessionCount + 1), lastUpdated := Val(now))
    ensures userId !in db ==> r.1 == SessionCountData(userId, 1, false, now)
    ensures userId !in db ==> r.0[userId] == CountDoc(Val(1), Val(false), Val(now))
    ensures r.1.lastUpdated == now
    ensures r.0 - {userId} == db - {userId}
  {
    if userId in db then
      var doc := db[userId];
      var count := if doc.sessionCount.Val? then doc.sessionCount.value + 1 else 1;
      var doc' := doc.(sessionCount := Val(count), lastUpdated := Val(now));
      (db[userId := doc'], Report(userId, doc', now))
    else
      CreateSessionCount(db, userId, now)
  }

  /** updateUpgradeStatus: sets the upgrade flag of an existing document; fails when the
      document is missing. */
  function UpdateUpgradeStatus(db: Counts, userId: UserId, hasUpgraded: bool, now: Time): (r: Result<Counts, CountError>)
    ensures r.Failure? <==> userId !in db
    ensures r.Success? ==> userId in r.value
    ensures r.Success? ==> r.value[userId].sessionCount == db[userId].sessionCount
    ensures r.Success? ==> r.value[userId].hasUpgraded == Val(hasUpgraded)
    ensures r.Success? ==> r.value[userId].lastUpdated == Val(now)
    ensures r.Success? ==> r.value - {userId} == db - {userId}
  {
    if userId !in db then Failure(NoDocumentToUpdate)
    else Success(db[userId := db[userId].(hasUpgraded := Val(hasUpgraded), lastUpdated := Val(now))])
  }

  /** resetSessionCount: overwrites the user's document with count 0, not upgraded, whether
      or not it existed. */
  function ResetSessionCount(db: Counts, userId: UserId, now: Time): (r: Counts)
    ensures userId in r && r[userId] == CountDoc(Val(0), Val(false), Val(now))
    ensures GetSessionCount(r, userId, now) == Some(SessionCountData(userId, 0, false, now))
    ensures r - {userId} == db - {userId}
  {
    db[userId := CountDoc(Val(0), Val(false), Val(now))]
  }

  /** The counters after one incrementSessionCount per instant of `times`, in order. */
  function Increments(db: Counts, userId: UserId, times: seq<Time>): Counts
    decreases |times|
  {
    if times == [] then db
    else Increments(IncrementSessionCount(db, userId, times[0]).0, userId, times[1..])
  }

  /** n increments of a counter that was at c leave it at c + n, with the upgrade flag
      untouched; the counters of other users do not change. */
  lemma {:induction false} IncrementsAdd(db: Counts, userId: UserId, times: seq<Time>, now: Time)
    requires userId in db
    ensures userId in Increments(db, userId, times)
    ensures GetSessionCount(Increments(db, userId, times), userId, now).value.sessionCount
         == GetSessionCount(db, userId, now).value.sessionCount + |times|
    ensures Increments(db, userId, times)[userId].hasUpgraded == db[userId].hasUpgraded
    ensures Increments(db, userId, times) - {userId} == db - {userId}
    decreases |times|
  {
    if times != [] {
      var db' := IncrementSessionCount(db, userId, times[0]).0;
      IncrementsAdd(db', userId, times[1..], now);
    }
  }

  /** n increments starting from no record give a count of n, not upgraded. */
  lemma IncrementsFromNothing(db: Counts, userId: UserId, times: seq<Time>, now: Time)
    requires userId !in db
    requires |times| >= 1
    ensures GetSessionCount(Increments(db, userId, times), userId, now).Some?
    ensures GetSessionCount(Increments(db, userId, times), userId, now).value.sessionCount == |times|
    ensures !GetSessionCount(Increments(db, userId, times), userId, now).value.hasUpgraded
  {
    var db' := IncrementSessionCount(db, userId, times[0]).0;
    IncrementsAdd(db', userId, times[1..], now);
  }

  /** After a reset, increments count from 0 again and the user is not upgraded. */
  lemma ResetThenIncrement(db: Counts, userId: UserId, reset: Time, times: seq<Time>, now: Time)
    ensures GetSessionCount(Increments(ResetSessionCount(db, userId, reset), userId, times), userId, now).Some?
    ensures !GetSessionCount(Increments(ResetSessionCount(db, userId, reset), userId, times), userId, now).value.hasUpgraded
    ensures GetSessionCount(Increments(ResetSessionCount(db, userId, reset), userId, times), userId, now).value.sessionCount
         == |times|
  {
    IncrementsAdd(ResetSessionCount(db, userId, reset), userId, times, now);
  }
}

=== FILE: text.dfy ===
/** String helpers with the behaviour of the JavaScript built-ins the source calls. */
module Text {

  // Decimal rendering of a non-negative integer, as `Number.prototype.toString()` does.

  predicate IsDigits(s: string) {
    forall i :: 0 <= i < |s| ==> '0' <= s[i] <= '9'
  }

  /** The number a string of decimal digits denotes. */
  function DigitsValue(s: string): nat
    requires IsDigits(s)
    decreases |s|
  {
    if s == [] then 0
    else 10 * DigitsValue(s[..|s| - 1]) + (s[|s| - 1] as int - '0' as int)
  }

  function DigitChar(d: nat): (c: char)
    requires d < 10
    ensures '0' <= c <= '9' && c as int - '0' as int == d
  {
    ('0' as int + d) as char
  }

  /** The decimal digits of `n`, without leading zeros. */
  function DecimalString(n: nat): (s: string)
    ensures |s| >= 1 && IsDigits(s)
    ensures DigitsValue(s) == n
    ensures s[0] == '0' ==> n == 0 && |s| == 1
    decreases n
  {
    if n < 10 then [DigitChar(n)]
    else
      var prefix := DecimalString(n / 10);
      var s := prefix + [DigitChar(n % 10)];
      assert s[..|s| - 1] == prefix;
      s
  }

  /** Distinct numbers have distinct decimal renderings. */
  lemma DecimalStringInjective(a: nat, b: nat)
    requires DecimalString(a) == DecimalString(b)
    ensures a == b
  {
  }

  // `String.prototype.split` with a one-character separator, and its inverse `join`.

  function Join(parts: seq<string>, sep: string): (s: string)
    requires |parts| >= 1
    decreases |parts|
  {
    if |parts| == 1 then parts[0] else parts[0] + sep + Join(parts[1..], sep)
  }

  /** Putting a character in front of the first piece puts it in front of the joined string. */
  lemma JoinPrepend(c: char, parts: seq<string>, sep: string)
    requires |parts| >= 1
    ensures Join([[c] + parts[0]] + parts[1..], sep) == [c] + Join(parts, sep)
  {
    var parts' := [[c] + parts[0]] + parts[1..];
    assert parts'[1..] == parts[1..];
  }

  /** The pieces of `s` between occurrences of `sep`: one more piece than there are
      separators, none containing the separator, and joining them back gives `s`. */
  function Split(s: string, sep: char): (parts: seq<string>)
    ensures |parts| >= 1
    ensures forall i :: 0 <= i < |parts| ==> sep !in parts[i]
    ensures Join(parts, [sep]) == s
    ensures |parts| == 1 <==> sep !in s
    decreases |s|
  {
    if s == [] then [""]
    else
      var rest := Split(s[1..], sep);
      assert s == [s[0]] + s[1..];
      if s[0] == sep then
        var parts := [""] + rest;
        assert parts[1..] == rest;
        parts
      else
        var parts := [[s[0]] + rest[0]] + rest[1..];
        JoinPrepend(s[0], rest, [sep]);
        assert forall i :: 1 <= i < |parts| ==> parts[i] == rest[i];
        parts
  }

  /** Splitting a string whose first piece is `head` gives `head`, then the pieces of the rest. */
  lemma {:induction false} SplitAfterPiece(head: string, sep: char, rest: string)
    requires sep !in head
    ensures Split(head + [sep] + rest, sep) == [head] + Split(rest, sep)
    decreases |head|
  {
    var s := head + [sep] + rest;
    if head == [] {
      assert s[1..] == rest;
    } else {
      assert s[1..] == head[1..] + [sep] + rest;
      SplitAfterPiece(head[1..], sep, rest);
      assert [head[0]] + head[1..] == head;
    }
  }
}
